=== FILE: README.md ===
# VCR topology sync and request-handler selection, modelled in Dafny

This project models two small pieces of the Ambry blob store. Their behaviour is pinned
down by two test classes.

1. **The VCR populate tool.** It keeps the replicator (VCR) cluster's Helix topology in step
   with a source cluster. A topology is a map from resource name to a set of partition ids.
   - `updateResourceAndPartition` copies every non-ignored source resource into the VCR
     cluster. In this model it only ever adds partitions: a stale resource is rebuilt over the
     union of its source and existing partitions. That additive choice is the model's.
   - `updateResourceIdealState` re-applies the configured ideal-state policy without touching
     any partition set.
   - The test's `isSrcDestSync` check is the invariant both operations keep. Every source
     resource whose name contains no ignore keyword must exist in the destination, with a
     superset of its partitions.
   - The configuration is a closed variant. Delayed auto-rebalance carries a rebalancer
     class, min active replicas and a delay. Full-auto carries only a strategy.
2. **The REST request-handler controller.** It is a fixed pool of handlers, each running or
   dead. `getRequestHandler` returns a running handler, or fails with
   `NoRequestHandlersAvailable` after at most one turn around the pool.

Modules:
- `Wrappers` (`wrappers.dfy`): `Option` and `Result`.
- `Strings` (`strings.dfy`): Java's `String.contains`.
- `VcrConfig` (`vcr_config.dfy`): the parsed configuration and the test's two configurations.
- `IdealStates` (`ideal_state.dfy`): the ideal state and `buildIdealState`.
- `VcrPopulate` (`vcr_populate.dfy`): the admin as an in-memory map, plus `Sync`, reconcile,
  refresh, the cluster operations and `isSrcDestSync`.
- `VcrPopulateTest` (`vcr_populate_test.dfy`): the integration test's scenario.
- `RequestHandlerController` (`request_handler_controller.dfy`): the handler pool.

The code of the classes `HelixVcrPopulateTool` and `RequestHandlerController` is not followed
line by line; their behaviour is stated as the two test classes exercise it.
- Where the tests leave a choice open, the model takes the additive one. Reconcile rebuilds
  a stale resource over the union of both partition sets, with the configured policy, and
  never removes a resource or a partition. Refresh rebuilds every non-ignored resource over
  its own partitions.
- Handler selection is a round-robin search that starts at a cursor and makes at most one
  turn around the pool. The tests only demand "a running handler, or fail fast".
- In the delayed variant, `Rebalancer.DelayedAuto` also keeps the rebalance strategy,
  because the test's delayed configuration sets one (HelixVcrPopulateToolTest.java line 51).
- The ignore keywords are a parameter `keywords: seq<string>`. The tool's own list is not
  part of this model.

## Model

| member | source | states |
|---|---|---|
| `Strings.Contains` | ambry-tools/src/integration-test/java/com/github/ambry/clustermap/HelixVcrPopulateToolTest.java:185 | `name.contains(keyword)` holds exactly when some window of the name equals the keyword, so the empty keyword matches every name |
| `IdealStates.BuildIdealState` | ambry-tools/src/integration-test/java/com/github/ambry/clustermap/HelixVcrPopulateToolTest.java:111-118 | the ideal state registers exactly the given partition set under the resource, each partition with no instance assigned; its partition count is the set's size and it carries the given policy |
| `VcrPopulate.Ignored` | ambry-tools/src/integration-test/java/com/github/ambry/clustermap/HelixVcrPopulateToolTest.java:185 | a resource is ignored exactly when some ignore keyword occurs somewhere in its name |
| `VcrPopulate.IsSrcDestSync` | ambry-tools/src/integration-test/java/com/github/ambry/clustermap/HelixVcrPopulateToolTest.java:176-203 | the test's loop returns true exactly when `Sync` holds: every non-ignored source resource is in the destination with a superset of its partitions |
| `VcrPopulate.Reconcile` | ambry-tools/src/integration-test/java/com/github/ambry/clustermap/HelixVcrPopulateToolTest.java:142-145 | afterwards source and destination are in sync; the destination gains exactly the non-ignored source resources; each of those holds the union of its source and existing partitions; no destination partition is lost; a resource that is ignored, absent from the source or already covered is left as it was; every changed resource is a fresh ideal state under the configured policy |
| `VcrPopulate.UpdateResourceAndPartition` | ambry-tools/src/integration-test/java/com/github/ambry/clustermap/HelixVcrPopulateToolTest.java:142-145 | fails exactly when the source or destination cluster is missing; otherwise the destination cluster is in sync with the source, and its settings and every other cluster are untouched |
| `VcrPopulate.Refresh` | ambry-tools/src/integration-test/java/com/github/ambry/clustermap/HelixVcrPopulateToolTest.java:165-168 | the resource set and every partition set stay the same; every non-ignored resource gets the configured policy and a consistent partition count; ignored resources are left as they were |
| `VcrPopulate.UpdateResourceIdealState` | ambry-tools/src/integration-test/java/com/github/ambry/clustermap/HelixVcrPopulateToolTest.java:166 | fails exactly when the destination cluster is missing; otherwise the cluster's topology is unchanged, its non-ignored resources carry the new policy, and other clusters are untouched |
| `VcrPopulate.CreateCluster` | ambry-tools/src/integration-test/java/com/github/ambry/clustermap/HelixVcrPopulateToolTest.java:140 | fails exactly when the cluster already exists; otherwise adds it empty with the configured cluster-level settings and leaves other clusters untouched |
| `VcrPopulate.AddResource` | ambry-tools/src/integration-test/java/com/github/ambry/clustermap/HelixVcrPopulateToolTest.java:118 | fails exactly when the cluster is missing or already has the resource; otherwise registers the ideal state under that name only |
| `VcrPopulate.DropResource` | ambry-tools/src/integration-test/java/com/github/ambry/clustermap/HelixVcrPopulateToolTest.java:148 | fails exactly when the cluster is missing; otherwise removes just that resource |
| `VcrPopulate.ReconcileFixpointIffSync` | ambry-tools/src/integration-test/java/com/github/ambry/clustermap/HelixVcrPopulateToolTest.java:160-163 | reconciling leaves the destination unchanged if and only if it is already in sync with the source; a property of the model for all inputs, which the test does not exercise because its source changes between the two reconciles |
| `VcrPopulate.ReconcileIdempotent` | ambry-tools/src/integration-test/java/com/github/ambry/clustermap/HelixVcrPopulateToolTest.java:160-161 | a second reconcile against an unchanged source changes nothing; a property of the model for all inputs, which the test does not exercise because its source changes between the two reconciles |
| `VcrPopulate.RefreshPreservesSync` | ambry-tools/src/integration-test/java/com/github/ambry/clustermap/HelixVcrPopulateToolTest.java:165-168 | if the clusters were in sync before the policy refresh, they are in sync after it |
| `VcrPopulate.IgnoredResourceNeverBreaksSync` | ambry-tools/src/integration-test/java/com/github/ambry/clustermap/HelixVcrPopulateToolTest.java:184-188 | a source resource whose name contains an ignore keyword does not affect sync, whatever its partitions |
| `VcrPopulate.MissingResourceBreaksSync` | ambry-tools/src/integration-test/java/com/github/ambry/clustermap/HelixVcrPopulateToolTest.java:198-200 | a non-ignored source resource absent from the destination makes sync false |
| `VcrPopulate.MissingPartitionBreaksSync` | ambry-tools/src/integration-test/java/com/github/ambry/clustermap/HelixVcrPopulateToolTest.java:191-197 | a source partition the destination resource lacks makes sync false |
| `VcrPopulate.SyncAllowsExtraDestination` | ambry-tools/src/integration-test/java/com/github/ambry/clustermap/HelixVcrPopulateToolTest.java:189-202 | sync needs inclusion, not equality: extra destination resources or partitions keep it |
| `VcrPopulateTest.CreateAndUpdateCluster` | ambry-tools/src/integration-test/java/com/github/ambry/clustermap/HelixVcrPopulateToolTest.java:130-171 | the test method as a sequence of admin steps; whenever the steps succeed, each of its three sync checks holds |
| `VcrPopulateTest.SetUpSource` | ambry-tools/src/integration-test/java/com/github/ambry/clustermap/HelixVcrPopulateToolTest.java:111-118 | the setup succeeds, leaving only the source cluster, which holds resource "1" with exactly partitions "0".."99" |
| `VcrPopulateTest.RecreateSource` | ambry-tools/src/integration-test/java/com/github/ambry/clustermap/HelixVcrPopulateToolTest.java:148-158 | drop-and-recreate fails exactly when the source cluster is missing or already has "2"; otherwise "1" and "2" both hold "0".."100", and every other resource and cluster is unchanged |
| `VcrPopulateTest.DecimalString` | ambry-tools/src/integration-test/java/com/github/ambry/clustermap/HelixVcrPopulateToolTest.java:114 | `Integer.toString` of a natural: non-empty, digits only, and starting with '0' exactly for zero, which is written "0"; the value it denotes is stated by `VcrPopulateTest.DecimalStringValue` |
| `VcrPopulateTest.DecimalStringValue` | ambry-tools/src/integration-test/java/com/github/ambry/clustermap/HelixVcrPopulateToolTest.java:114 | the decimal text of n consists of digits and denotes n |
| `VcrPopulateTest.DecimalStringInjective` | ambry-tools/src/integration-test/java/com/github/ambry/clustermap/HelixVcrPopulateToolTest.java:114 | two numbers have the same decimal text exactly when they are equal |
| `VcrPopulateTest.PartitionRangeSize` | ambry-tools/src/integration-test/java/com/github/ambry/clustermap/HelixVcrPopulateToolTest.java:112-115 | the loop's partition set "0".."count-1" has exactly count distinct partitions, so the test's ranges hold 100 and 101 partitions |
| `VcrPopulateTest.CreateAndUpdateClusterSucceeds` | ambry-tools/src/integration-test/java/com/github/ambry/clustermap/HelixVcrPopulateToolTest.java:130-171 | for every configuration and every list of ignore keywords, the test's steps all succeed and its three sync checks hold |
| `VcrPopulateTest.CreateAndUpdateClusterPasses` | ambry-tools/src/integration-test/java/com/github/ambry/clustermap/HelixVcrPopulateToolTest.java:147-163 | for keyword lists that match neither "1" nor "2", both destination resources end with exactly partitions "0".."100" |
| `VcrPopulateTest.BothTestConfigsPass` | ambry-tools/src/integration-test/java/com/github/ambry/clustermap/HelixVcrPopulateToolTest.java:88-91 | the test passes for both the full-auto CrushEd and the delayed auto-rebalance configuration, whatever the ignore keywords |
| `VcrConfig.TestConfigurations` | ambry-tools/src/integration-test/java/com/github/ambry/clustermap/HelixVcrPopulateToolTest.java:46-62 | the test's two configurations share the cluster settings (4, 2, true), two replicas and the "OnlineOffline" state model; the first is delayed auto-rebalance naming the `DelayedAutoRebalancer` class, with no minimum of active replicas and a 20-minute delay, the second full-auto CrushEd |
| `RequestHandlerController.New` | ambry-rest/src/test/java/com.github.ambry.rest/RequestHandlerControllerTest.java:37-41 | construction fails with an instantiation error exactly when fewer than one handler is asked for; otherwise the pool has that many handlers, none running and not started |
| `RequestHandlerController.Start` | ambry-rest/src/test/java/com.github.ambry.rest/RequestHandlerControllerTest.java:25-31 | after start every handler of the same-sized pool is running |
| `RequestHandlerController.Shutdown` | ambry-rest/src/test/java/com.github.ambry.rest/RequestHandlerControllerTest.java:50-55 | shutdown is allowed started or not and leaves no handler running |
| `RequestHandlerController.ShutdownHandler` | ambry-rest/src/test/java/com.github.ambry.rest/RequestHandlerControllerTest.java:110-111 | shutting down one handler makes just that handler dead |
| `RequestHandlerController.Scan` | ambry-rest/src/test/java/com.github.ambry.rest/RequestHandlerControllerTest.java:118-125 | the search ends after at most one turn; it finds nothing exactly when no handler runs, and what it finds is running and the first running one in round-robin order |
| `RequestHandlerController.GetRequestHandler` | ambry-rest/src/test/java/com.github.ambry.rest/RequestHandlerControllerTest.java:104-125 | fails with `NoRequestHandlersAvailable` exactly when no handler runs; otherwise returns a running handler, the first at or after the cursor, and moves the cursor just past it without changing any handler |
| `RequestHandlerController.GetRepeatedly` | ambry-rest/src/test/java/com.github.ambry.rest/RequestHandlerControllerTest.java:140-147 | asking k times fails exactly when k > 0 and no handler runs; otherwise yields k handlers, every one running |
| `RequestHandlerController.ShutdownRunningHandlerCount` | ambry-rest/src/test/java/com.github.ambry.rest/RequestHandlerControllerTest.java:110-119 | shutting down a running handler lowers the running count by exactly one |
| `RequestHandlerController.RunningCountZero` | ambry-rest/src/test/java/com.github.ambry.rest/RequestHandlerControllerTest.java:118-121 | the running count is zero exactly when no handler runs |
| `RequestHandlerController.DeadHandlerRound` | ambry-rest/src/test/java/com.github.ambry.rest/RequestHandlerControllerTest.java:110-117 | a get-and-shut-down round fails with `NoRequestHandlersAvailable` exactly when no handler runs, or further requests are asked for and the handler it took was the last one running; otherwise exactly one previously running handler is now dead and every other handler keeps its state |
| `RequestHandlerController.DeadHandlerRoundCount` | ambry-rest/src/test/java/com.github.ambry.rest/RequestHandlerControllerTest.java:104-125 | a get-and-shut-down round removes one running handler; its further requests succeed exactly when another handler still runs, and fail with `NoRequestHandlersAvailable` otherwise |
| `RequestHandlerController.DeadHandlersTestPasses` | ambry-rest/src/test/java/com.github.ambry.rest/RequestHandlerControllerTest.java:104-129 | with three started handlers, the first two rounds of 1000 requests succeed and the third request fails with `NoRequestHandlersAvailable` |
| `RequestHandlerController.StartedControllerServes` | ambry-rest/src/test/java/com.github.ambry.rest/RequestHandlerControllerTest.java:85-95 | after start, any number of requests all succeed, and shutdown then leaves nothing running |
| `RequestHandlerController.GetBeforeStartFails` | ambry-rest/src/test/java/com.github.ambry.rest/RequestHandlerControllerTest.java:64-77 | a request before start fails with `NoRequestHandlersAvailable` |

## Left out

- Reading the JSON configuration document (Jackson `ObjectMapper`) is not modelled. The configuration is taken already parsed; the two test configurations are constants in `VcrConfig`.
- ZooKeeper and Helix plumbing is not modelled: connect strings, ports, `HelixZkClient`, `ZKHelixAdmin`, `ClusterSetup`. Each coordination service is an in-memory map from cluster name to resources.
- Replica placement by the Helix rebalancers (CrushEd, DelayedAutoRebalancer) is not modelled. It happens outside the tool; only the rebalancer tag and its parameters are kept.
- The dry-run flag is not modelled: only the non-dry-run path is exercised. Operator logging is left out too, as it has no observable effect.
- Per-resource failure isolation is not modelled. The writes that `Reconcile` and `Refresh` make cannot fail, and no per-resource action report is produced.
- The cluster-level settings are only recorded at cluster creation. Their effect on the coordination service is external.
- Threads inside `RestRequestHandler` are not modelled, and neither are `RestServerMetrics`, `MockBlobStorageService` or `MockClusterMap`. Each handler is a running/dead flag. The controller's cursor always stays inside the pool: after handing out handler `i` it moves to `i + 1`, wrapping to 0 after the last handler. Any integer overflow of a Java counter behind it is not modelled.
- RequestHandlerController.GetRequestHandler: the round-robin order is the model's choice; the tests only require a running handler or a fast failure.
- VcrPopulate.Reconcile: the tool's own handling of a stale resource is not modelled. Replacing the resource with the source's partitions alone would pass the same test, because destination "1" = "0".."99" is contained in the recreated source "1" = "0".."100". The union is the model's choice.
- VcrPopulateTest.CreateAndUpdateClusterPasses: its statement about the final partitions assumes the ignore keywords match neither "1" nor "2", because the tool's keyword list is not part of this model. That the test's steps succeed and its three sync checks hold is proved for every keyword list (`VcrPopulateTest.CreateAndUpdateClusterSucceeds`).

=== FILE: ideal_state.dfy ===
/** The ideal state of one resource and the tool's `buildIdealState`. */
module IdealStates {
  import opened VcrConfig

  type ResourceName = string
  type PartitionId = string
  type InstanceName = string

  /** A resource's ideal state: one preference list per partition (which instances should
      hold it), the declared partition count and the replication policy. */
  datatype IdealState = IdealState(
    resource: ResourceName,
    preferenceLists: map<PartitionId, seq<InstanceName>>,
    numPartitions: int,
    policy: IdealStateConfig)
  {
    /** The partitions registered under the resource (Helix's `getPartitionSet`). */
    function PartitionSet(): set<PartitionId>
    {
      preferenceLists.Keys
    }

    /** The declared partition count agrees with the registered partitions. */
    predicate WellFormed()
    {
      numPartitions == |preferenceLists.Keys|
    }
  }

  /** Registers every given partition under `name` with no instance assigned yet, so that the
      rebalancer named in `cfg` places the replicas. Duplicates collapse and order does not
      matter because `partitions` is a set. */
  function BuildIdealState(name: ResourceName, partitions: set<PartitionId>, cfg: IdealStateConfig): (r: IdealState)
    ensures r.resource == name
    ensures r.PartitionSet() == partitions
    ensures forall p :: p in r.preferenceLists ==> r.preferenceLists[p] == []
    ensures r.WellFormed() && r.numPartitions == |partitions|
    ensures r.policy == cfg
  {
    IdealState(name, map p | p in partitions :: [], |partitions|, cfg)
  }
}

=== FILE: request_handler_controller.dfy ===
/** The REST front end's request-handler controller: a fixed pool of request handlers
    from which `getRequestHandler` hands out one that is running, in round-robin order. */
module RequestHandlerController {
  import opened Wrappers

  datatype ControllerError =
    | InstantiationError          // the constructor was given fewer than one handler
    | NoRequestHandlersAvailable  // no handler of the pool is running

  /** `running[i]` says whether handler `i` is running; `cursor` is where the next
      round-robin search begins. */
  datatype Controller = Controller(started: bool, running: seq<bool>, cursor: nat)

  /** A handler handed out, and the controller after handing it out. */
  datatype Pick = Pick(handler: nat, next: Controller)

  predicate AnyRunning(running: seq<bool>)
  {
    exists i :: 0 <= i < |running| && running[i]
  }

  /** A controller as its constructor and lifecycle calls leave it: a non-empty pool, a cursor
      inside it, and no handler running before `start`. */
  predicate Valid(c: Controller)
  {
    && |c.running| > 0
    && c.cursor < |c.running|
    && (!c.started ==> !AnyRunning(c.running))
  }

  /** The handler `k` steps after `start`, wrapping once around a pool of `n`. */
  function Wrap(start: nat, k: nat, n: nat): nat
    requires start < n && k < n
  {
    if start + k < n then start + k else start + k - n
  }

  /** How many steps after `start` handler `j` comes; the inverse of `Wrap`. */
  function Distance(start: nat, j: nat, n: nat): (d: nat)
    requires start < n && j < n
    ensures d < n && Wrap(start, d, n) == j
  {
    if start <= j then j - start else j + n - start
  }

  /** The handler after `i` in a pool of `n`, wrapping to the first. */
  function Successor(i: nat, n: nat): (j: nat)
    requires i < n
    ensures j < n && j == (i + 1) % n
  {
    if i + 1 < n then i + 1 else 0
  }

  /** Number of running handlers. */
  function RunningCount(running: seq<bool>): (k: nat)
    ensures k <= |running|
  {
    if running == [] then 0 else (if running[0] then 1 else 0) + RunningCount(running[1..])
  }

  /** The constructor: at least one handler, none of them running yet. */
  function New(handlerCount: int): (r: Result<Controller, ControllerError>)
    ensures r.Failure? <==> handlerCount < 1
    ensures r.Failure? ==> r.error == InstantiationError
    ensures r.Success? ==> Valid(r.value) && |r.value.running| == handlerCount
    ensures r.Success? ==> !r.value.started && !AnyRunning(r.value.running)
  {
    if handlerCount < 1 then Failure(InstantiationError)
    else Success(Controller(false, seq(handlerCount, _ => false), 0))
  }

  /** `start`: every handler of the pool starts running. */
  function Start(c: Controller): (r: Controller)
    requires Valid(c)
    ensures Valid(r) && r.started
    ensures |r.running| == |c.running| && forall i :: 0 <= i < |r.running| ==> r.running[i]
  {
    Controller(true, seq(|c.running|, _ => true), c.cursor)
  }

  /** `shutdown`: permitted whether or not `start` was called; no handler runs afterwards. */
  function Shutdown(c: Controller): (r: Controller)
    requires Valid(c)
    ensures Valid(r) && !r.started && !AnyRunning(r.running)
    ensures |r.running| == |c.running|
  {
    Controller(false, seq(|c.running|, _ => false), c.cursor)
  }

  /** A single handler is shut down from outside (`RestRequestHandler.shutdown`). */
  function ShutdownHandler(c: Controller, i: nat): (r: Controller)
    requires Valid(c) && i < |c.running|
    ensures Valid(r) && r.started == c.started && r.cursor == c.cursor
    ensures |r.running| == |c.running| && !r.running[i]
    ensures forall j :: 0 <= j < |c.running| && j != i ==> r.running[j] == c.running[j]
  {
    c.(running := c.running[i := false])
  }

  /** Searches the pool from `start`, having already found the first `tried` handlers in
      round-robin order dead. At most one full turn is made, so the search always ends. */
  function Scan(running: seq<bool>, start: nat, tried: nat): (r: Option<nat>)
    requires start < |running| && tried <= |running|
    requires forall k :: 0 <= k < tried ==> !running[Wrap(start, k, |running|)]
    ensures r.Some? ==> r.value < |running| && running[r.value]
    ensures r.Some? ==> forall k :: 0 <= k < Distance(start, r.value, |running|) ==> !running[Wrap(start, k, |running|)]
    ensures r.None? <==> !AnyRunning(running)
    decreases |running| - tried
  {
    var n := |running|;
    if tried == n then
      assert forall j :: 0 <= j < n ==> !running[j] by {
        forall j | 0 <= j < n
          ensures !running[j]
        {
          var k := Distance(start, j, n);
          assert !running[Wrap(start, k, n)];
        }
      }
      None
    else if running[Wrap(start, tried, n)] then
      assert Distance(start, Wrap(start, tried, n), n) == tried;
      Some(Wrap(start, tried, n))
    else
      Scan(running, start, tried + 1)
  }

  /** `getRequestHandler`: the first running handler at or after the cursor, in round-robin
      order, with the cursor moved just past it; `NoRequestHandlersAvailable` if none runs. */
  function GetRequestHandler(c: Controller): (r: Result<Pick, ControllerError>)
    requires Valid(c)
    ensures r.Failure? <==> !AnyRunning(c.running)
    ensures r.Failure? ==> r.error == NoRequestHandlersAvailable
    ensures r.Success? ==> r.value.handler < |c.running| && c.running[r.value.handler]
    ensures r.Success? ==> forall k :: 0 <= k < Distance(c.cursor, r.value.handler, |c.running|) ==>
              !c.running[Wrap(c.cursor, k, |c.running|)]
    ensures r.Success? ==> Valid(r.value.next) && r.value.next.running == c.running && r.value.next.started == c.started
    ensures r.Success? ==> r.value.next.cursor == (r.value.handler + 1) % |c.running|
  {
    match Scan(c.running, c.cursor, 0)
    case None => Failure(NoRequestHandlersAvailable)
    case Some(i) => Success(Pick(i, c.(cursor := Successor(i, |c.running|))))
  }

  /** The test helper `doGetRestRequestHandler`: asks for a handler `iterations` times and
      collects what it got; fails as soon as one request fails. */
  function GetRepeatedly(c: Controller, iterations: nat): (r: Result<(seq<nat>, Controller), ControllerError>)
    requires Valid(c)
    ensures r.Failure? <==> iterations > 0 && !AnyRunning(c.running)
    ensures r.Failure? ==> r.error == NoRequestHandlersAvailable
    ensures r.Success? ==> |r.value.0| == iterations
    ensures r.Success? ==> forall k :: 0 <= k < iterations ==> r.value.0[k] < |c.running| && c.running[r.value.0[k]]
    ensures r.Success? ==> Valid(r.value.1) && r.value.1.running == c.running && r.value.1.started == c.started
    decreases iterations
  {
    if iterations == 0 then Success(([], c))
    else
      match GetRequestHandler(c)
      case Failure(e) => Failure(e)
      case Success(pick) =>
        match GetRepeatedly(pick.next, iterations - 1)
        case Failure(e) => Failure(e)
        case Success(rest) => Success(([pick.handler] + rest.0, rest.1))
  }

  /** Shutting down a running handler leaves exactly one fewer running. */
  lemma {:induction false} ShutdownRunningHandlerCount(running: seq<bool>, i: nat)
    requires i < |running| && running[i]
    ensures RunningCount(running[i := false]) == RunningCount(running) - 1
    decreases |running|
  {
    if i > 0 {
      assert running[i := false][1..] == running[1..][i - 1 := false];
      ShutdownRunningHandlerCount(running[1..], i - 1);
    } else {
      assert running[i := false][1..] == running[1..];
    }
  }

  /** No handler runs exactly when the running count is zero. */
  lemma {:induction false} RunningCountZero(running: seq<bool>)
    ensures RunningCount(running) == 0 <==> !AnyRunning(running)
  {
    if running != [] {
      RunningCountZero(running[1..]);
      if AnyRunning(running[1..]) {
        var j :| 0 <= j < |running[1..]| && running[1..][j];
        assert running[j + 1];
      }
      if AnyRunning(running) && !running[0] {
        var j :| 0 <= j < |running| && running[j];
        assert running[1..][j - 1];
      }
    }
  }

  /** One round of the dead-handler test: get a handler, shut it down, then ask for a handler
      `iterations` more times. */
  function DeadHandlerRound(c: Controller, iterations: nat): (r: Result<Controller, ControllerError>)
    requires Valid(c)
    ensures r.Failure? ==> r.error == NoRequestHandlersAvailable
    ensures r.Failure? <==> !AnyRunning(c.running) || (iterations > 0 && RunningCount(c.running) == 1)
    ensures r.Success? ==> Valid(r.value) && r.value.started == c.started && |r.value.running| == |c.running|
    ensures r.Success? ==> exists i :: 0 <= i < |c.running| && c.running[i] && r.value.running == c.running[i := false]
  {
    RunningCountZero(c.running);
    match GetRequestHandler(c)
    case Failure(e) => Failure(e)
    case Success(pick) =>
      var afterShutdown := ShutdownHandler(pick.next, pick.handler);
      assert afterShutdown.running == c.running[pick.handler := false];
      ShutdownRunningHandlerCount(c.running, pick.handler);
      RunningCountZero(afterShutdown.running);
      match GetRepeatedly(afterShutdown, iterations)
      case Failure(e) => Failure(e)
      case Success(got) => Success(got.1)
  }

  /** A round takes one running handler out of service, and its further requests succeed
      exactly when some handler is still running; once none is left the controller fails
      fast with `NoRequestHandlersAvailable` instead of looping. */
  lemma DeadHandlerRoundCount(c: Controller, iterations: nat)
    requires Valid(c) && RunningCount(c.running) > 0
    ensures var r := DeadHandlerRound(c, iterations);
            && (r.Success? <==> iterations == 0 || RunningCount(c.running) > 1)
            && (r.Failure? ==> r.error == NoRequestHandlersAvailable)
            && (r.Success? ==> Valid(r.value) && RunningCount(r.value.running) == RunningCount(c.running) - 1)
  {
    RunningCountZero(c.running);
    var pick := GetRequestHandler(c).value;
    var afterShutdown := ShutdownHandler(pick.next, pick.handler);
    assert afterShutdown.running == c.running[pick.handler := false];
    ShutdownRunningHandlerCount(c.running, pick.handler);
    RunningCountZero(afterShutdown.running);
  }

  /** `restRequestHandlerGetWithDeadRequestHandlersTest`: with three handlers started, the first
      two rounds (1000 requests each) succeed and the third fails with
      `NoRequestHandlersAvailable`. */
  lemma DeadHandlersTestPasses()
    ensures New(3).Success?
    ensures var c0 := Start(New(3).value);
            var r1 := DeadHandlerRound(c0, 1000);
            && r1.Success?
            && DeadHandlerRound(r1.value, 1000).Success?
            && DeadHandlerRound(DeadHandlerRound(r1.value, 1000).value, 1) == Failure(NoRequestHandlersAvailable)
  {
    var c0 := Start(New(3).value);
    assert c0.running == [true, true, true];
    assert RunningCount(c0.running) == 3;
    DeadHandlerRoundCount(c0, 1000);
    var c1 := DeadHandlerRound(c0, 1000).value;
    DeadHandlerRoundCount(c1, 1000);
    var c2 := DeadHandlerRound(c1, 1000).value;
    DeadHandlerRoundCount(c2, 1);
  }

  /** `restRequestHandlerGetTest` and `startShutdownTest`: once started, every request gets a
      running handler; shutting down afterwards leaves nothing running. */
  lemma StartedControllerServes(handlerCount: int, iterations: nat)
    requires handlerCount >= 1
    ensures var c := Start(New(handlerCount).value);
            && GetRepeatedly(c, iterations).Success?
            && !AnyRunning(Shutdown(c).running)
  {
    var c := Start(New(handlerCount).value);
    assert c.running[0];
  }

  /** `useServiceWithoutStartTest`: before `start` every request fails. */
  lemma GetBeforeStartFails(handlerCount: int)
    requires handlerCount >= 1
    ensures GetRequestHandler(New(handlerCount).value) == Failure(NoRequestHandlersAvailable)
  {
  }
}

=== FILE: strings.dfy ===
/** Java's `String.contains`, the test used to recognise non-data resources by name. */
module Strings {

  /** `sub` occurs in `s` starting at index `i`. */
  ghost predicate OccursAt(s: string, sub: string, i: int)
  {
    0 <= i && i + |sub| <= |s| && s[i..i + |sub|] == sub
  }

  /** `s.contains(sub)`: some window of `s` equals `sub`; every string contains "". */
  function Contains(s: string, sub: string): (r: bool)
    ensures r <==> exists i :: OccursAt(s, sub, i)
    decreases |s|
  {
    if |sub| > |s| then
      assert forall i :: !OccursAt(s, sub, i);
      false
    else if s[..|sub|] == sub then
      assert OccursAt(s, sub, 0);
      true
    else
      var rest := Contains(s[1..], sub);
      ShiftOccurrence(s, sub);
      rest
  }

  /** An occurrence past index 0 is an occurrence in the tail, and vice versa. */
  lemma ShiftOccurrence(s: string, sub: string)
    requires |s| > 0
    requires !OccursAt(s, sub, 0)
    ensures (exists i :: OccursAt(s, sub, i)) <==> (exists j :: OccursAt(s[1..], sub, j))
  {
    forall i | OccursAt(s, sub, i)
      ensures OccursAt(s[1..], sub, i - 1)
    {
      assert s[1..][i - 1..i - 1 + |sub|] == s[i..i + |sub|];
    }
    forall j | OccursAt(s[1..], sub, j)
      ensures OccursAt(s, sub, j + 1)
    {
      assert s[1..][j..j + |sub|] == s[j + 1..j + 1 + |sub|];
    }
  }
}

=== FILE: vcr_config.dfy ===
/** The already-parsed configuration document of the VCR populate tool. */
module VcrConfig {

  /** Cluster-level settings, used only when the destination cluster is created. */
  datatype ClusterConfig = ClusterConfig(
    maxOfflineInstancesAllowed: int,
    numOfflineInstancesForAutoExit: int,
    allowAutoJoin: bool)

  /** How the coordination service places replicas. Naming a rebalancer class switches a
      resource into delayed auto-rebalance; without one it is plain full-auto with a strategy. */
  datatype Rebalancer =
    | FullAuto(strategy: string)
    | DelayedAuto(strategy: string, rebalancerClass: string, minActiveReplicas: int, delayInMins: int)

  /** The ideal-state policy applied to every resource of the destination cluster. */
  datatype IdealStateConfig = IdealStateConfig(
    numReplicas: int,
    stateModelDefRef: string,
    rebalancer: Rebalancer)

  datatype Config = Config(cluster: ClusterConfig, idealState: IdealStateConfig)

  const CrushEdStrategy := "org.apache.helix.controller.rebalancer.strategy.CrushEdRebalanceStrategy"
  const DelayedAutoRebalancerClass := "org.apache.helix.controller.rebalancer.DelayedAutoRebalancer"

  const TestClusterConfig := ClusterConfig(4, 2, true)

  /** The delayed auto-rebalance configuration the tool's test runs with. */
  const DelayedAutoRebalanceConfig :=
    Config(TestClusterConfig,
           IdealStateConfig(2, "OnlineOffline", DelayedAuto(CrushEdStrategy, DelayedAutoRebalancerClass, 0, 20)))

  /** The full-auto CrushEd configuration the tool's test runs with. */
  const CrushEdRebalancerConfig :=
    Config(TestClusterConfig, IdealStateConfig(2, "OnlineOffline", FullAuto(CrushEdStrategy)))

  /** The two test configurations share the cluster settings, two replicas and the online/offline
      state model, and differ only in rebalance mode: naming the delayed rebalancer class makes the
      first delayed (no minimum of active replicas, a 20-minute delay), its absence makes the
      second plain full-auto CrushEd. */
  lemma TestConfigurations()
    ensures DelayedAutoRebalanceConfig.cluster == CrushEdRebalancerConfig.cluster == ClusterConfig(4, 2, true)
    ensures DelayedAutoRebalanceConfig.idealState.numReplicas == CrushEdRebalancerConfig.idealState.numReplicas == 2
    ensures DelayedAutoRebalanceConfig.idealState.stateModelDefRef == CrushEdRebalancerConfig.idealState.stateModelDefRef == "OnlineOffline"
    ensures DelayedAutoRebalanceConfig.idealState.rebalancer.DelayedAuto?
    ensures DelayedAutoRebalanceConfig.idealState.rebalancer.rebalancerClass == DelayedAutoRebalancerClass
    ensures DelayedAutoRebalanceConfig.idealState.rebalancer.minActiveReplicas == 0
    ensures DelayedAutoRebalanceConfig.idealState.rebalancer.delayInMins == 20
    ensures CrushEdRebalancerConfig.idealState.rebalancer == FullAuto(CrushEdStrategy)
    ensures DelayedAutoRebalanceConfig.idealState.rebalancer.strategy == CrushEdStrategy
  {
  }
}

=== FILE: vcr_populate.dfy ===
/** The VCR populate tool: keeps the replicator (VCR) cluster's resources and partitions in
    step with a source cluster, and re-applies ideal-state policy to the VCR cluster.
    A coordination-service admin is modelled as an in-memory map from cluster name to the
    cluster's resources and their ideal states. */
module VcrPopulate {
  import opened Wrappers
  import opened Strings
  import opened VcrConfig
  import opened IdealStates

  type ClusterName = string

  /** What a cluster holds, as seen through its admin: resource name to ideal state. */
  type Resources = map<ResourceName, IdealState>

  /** The partition topology of a cluster: resource name to its set of partitions. */
  type Topology = map<ResourceName, set<PartitionId>>

  /** A cluster: the cluster-level settings it was created with (none for a cluster set up
      by other means) and its resources. */
  datatype Cluster = Cluster(settings: Option<ClusterConfig>, resources: Resources)

  /** One coordination service, as reached through its admin. */
  type Admin = map<ClusterName, Cluster>

  datatype AdminError =
    | ClusterAlreadyExists(cluster: ClusterName)
    | ClusterNotFound(cluster: ClusterName)
    | ResourceAlreadyExists(cluster: ClusterName, resource: ResourceName)

  /** A resource whose name contains one of the ignore keywords is not a data resource and
      takes no part in syncing (the `anyMatch(resource::contains)` test). */
  predicate Ignored(name: ResourceName, keywords: seq<string>)
    ensures Ignored(name, keywords) <==> exists k, i :: k in keywords && OccursAt(name, k, i)
  {
    exists k :: k in keywords && Contains(name, k)
  }

  function TopologyOf(resources: Resources): Topology
  {
    map n | n in resources :: resources[n].PartitionSet()
  }

  /** The partitions `dst` already registers under `name`, none if it lacks the resource. */
  function Existing(dst: Resources, name: ResourceName): set<PartitionId>
  {
    if name in dst then dst[name].PartitionSet() else {}
  }

  /** The non-ignored resources of a source cluster. */
  function Tracked(src: Resources, keywords: seq<string>): set<ResourceName>
  {
    set n | n in src && !Ignored(n, keywords)
  }

  /** Source and destination are in sync when every non-ignored source resource exists in the
      destination with at least the source's partitions. Extra destination resources and
      partitions are allowed. */
  predicate Sync(src: Topology, dst: Topology, keywords: seq<string>)
  {
    forall n :: n in src && !Ignored(n, keywords) ==> n in dst && src[n] <= dst[n]
  }

  /** The tool's resource-and-partition update, applied to the destination's resources.
      A non-ignored source resource missing from the destination is created; one whose source
      partitions are not all registered in the destination is rebuilt over the union of both
      partition sets. Nothing is ever removed, and every other resource is left as it was. */
  function Reconcile(src: Resources, dst: Resources, cfg: IdealStateConfig, keywords: seq<string>): (r: Resources)
    ensures Sync(TopologyOf(src), TopologyOf(r), keywords)
    ensures r.Keys == dst.Keys + Tracked(src, keywords)
    ensures forall n :: n in src && !Ignored(n, keywords) ==>
              TopologyOf(r)[n] == src[n].PartitionSet() + Existing(dst, n)
    ensures forall n :: n in dst ==> dst[n].PartitionSet() <= r[n].PartitionSet()
    ensures forall n :: n in dst && (n !in src || Ignored(n, keywords) || src[n].PartitionSet() <= dst[n].PartitionSet())
              ==> r[n] == dst[n]
    ensures forall n :: n in r && (n !in dst || r[n] != dst[n]) ==> r[n] == BuildIdealState(n, r[n].PartitionSet(), cfg)
  {
    var r := map n | n in dst.Keys + Tracked(src, keywords) :: ResourceAfter(src, dst, cfg, keywords, n);
    ReconcileFacts(src, dst, cfg, keywords, r);
    r
  }

  // The facts below are `Reconcile`'s own postcondition. Proving them in a separate lemma,
  // resource by resource, keeps the verifier's work on `Reconcile` small.
  lemma ReconcileFacts(src: Resources, dst: Resources, cfg: IdealStateConfig, keywords: seq<string>, r: Resources)
    requires r == map n | n in dst.Keys + Tracked(src, keywords) :: ResourceAfter(src, dst, cfg, keywords, n)
    ensures Sync(TopologyOf(src), TopologyOf(r), keywords)
    ensures r.Keys == dst.Keys + Tracked(src, keywords)
    ensures forall n :: n in src && !Ignored(n, keywords) ==>
              TopologyOf(r)[n] == src[n].PartitionSet() + Existing(dst, n)
    ensures forall n :: n in dst ==> dst[n].PartitionSet() <= r[n].PartitionSet()
    ensures forall n :: n in dst && (n !in src || Ignored(n, keywords) || src[n].PartitionSet() <= dst[n].PartitionSet())
              ==> r[n] == dst[n]
    ensures forall n :: n in r && (n !in dst || r[n] != dst[n]) ==> r[n] == BuildIdealState(n, r[n].PartitionSet(), cfg)
  {
    assert r.Keys == dst.Keys + Tracked(src, keywords);
    forall n | n in r
      ensures n in dst ==> dst[n].PartitionSet() <= r[n].PartitionSet()
      ensures n in src && !Ignored(n, keywords) ==> r[n].PartitionSet() == src[n].PartitionSet() + Existing(dst, n)
      ensures (n !in dst || r[n] != dst[n]) ==> r[n] == BuildIdealState(n, r[n].PartitionSet(), cfg)
    {
      assert r[n] == ResourceAfter(src, dst, cfg, keywords, n);
    }
  }

  /** The destination must (re)build resource `n`: it is a non-ignored source resource that
      the destination lacks, or whose source partitions the destination does not all hold. */
  predicate NeedsUpdate(src: Resources, dst: Resources, keywords: seq<string>, n: ResourceName)
  {
    n in src && !Ignored(n, keywords) && (n !in dst || !(src[n].PartitionSet() <= dst[n].PartitionSet()))
  }

  function ResourceAfter(src: Resources, dst: Resources, cfg: IdealStateConfig, keywords: seq<string>, n: ResourceName): IdealState
    requires n in dst || n in Tracked(src, keywords)
  {
    if NeedsUpdate(src, dst, keywords, n) then BuildIdealState(n, src[n].PartitionSet() + Existing(dst, n), cfg)
    else dst[n]
  }

  /** The tool's ideal-state update: every non-ignored resource is rebuilt over its own
      partitions under `cfg`; ignored resources are left alone. */
  function Refresh(dst: Resources, cfg: IdealStateConfig, keywords: seq<string>): (r: Resources)
    ensures r.Keys == dst.Keys
    ensures TopologyOf(r) == TopologyOf(dst)
    ensures forall n :: n in r && !Ignored(n, keywords) ==> r[n].policy == cfg && r[n].WellFormed()
    ensures forall n :: n in r && Ignored(n, keywords) ==> r[n] == dst[n]
  {
    map n | n in dst :: if Ignored(n, keywords) then dst[n] else BuildIdealState(n, dst[n].PartitionSet(), cfg)
  }

  /** Creates the destination cluster from the cluster-level settings of `cfg`. */
  function CreateCluster(admin: Admin, name: ClusterName, cfg: Config): (r: Result<Admin, AdminError>)
    ensures r.Failure? <==> name in admin
    ensures r.Failure? ==> r.error == ClusterAlreadyExists(name)
    ensures r.Success? ==> r.value.Keys == admin.Keys + {name}
    ensures r.Success? ==> r.value[name].resources == map[] && r.value[name].settings == Some(cfg.cluster)
    ensures r.Success? ==> forall c :: c in admin ==> r.value[c] == admin[c]
  {
    if name in admin then Failure(ClusterAlreadyExists(name))
    else Success(admin[name := Cluster(Some(cfg.cluster), map[])])
  }

  /** The admin's `addResource`: registers a new resource with the given ideal state. */
  function AddResource(admin: Admin, cluster: ClusterName, name: ResourceName, state: IdealState): (r: Result<Admin, AdminError>)
    ensures r.Failure? <==> cluster !in admin || name in admin[cluster].resources
    ensures r.Success? ==> r.value.Keys == admin.Keys && r.value[cluster].resources == admin[cluster].resources[name := state]
    ensures r.Success? ==> forall c :: c in admin && c != cluster ==> r.value[c] == admin[c]
  {
    if cluster !in admin then Failure(ClusterNotFound(cluster))
    else if name in admin[cluster].resources then Failure(ResourceAlreadyExists(cluster, name))
    else Success(admin[cluster := admin[cluster].(resources := admin[cluster].resources[name := state])])
  }

  /** The admin's `dropResource`: forgets a resource and its partitions. */
  function DropResource(admin: Admin, cluster: ClusterName, name: ResourceName): (r: Result<Admin, AdminError>)
    ensures r.Failure? <==> cluster !in admin
    ensures r.Success? ==> r.value.Keys == admin.Keys && r.value[cluster].resources == admin[cluster].resources - {name}
    ensures r.Success? ==> forall c :: c in admin && c != cluster ==> r.value[c] == admin[c]
  {
    if cluster !in admin then Failure(ClusterNotFound(cluster))
    else Success(admin[cluster := admin[cluster].(resources := admin[cluster].resources - {name})])
  }

  /** `updateResourceAndPartition` without dry run: reconciles the destination cluster
      against the source cluster. Both clusters must exist. */
  function UpdateResourceAndPartition(
    srcAdmin: Admin, srcCluster: ClusterName, dstAdmin: Admin, dstCluster: ClusterName,
    cfg: Config, keywords: seq<string>): (r: Result<Admin, AdminError>)
    ensures r.Failure? <==> srcCluster !in srcAdmin || dstCluster !in dstAdmin
    ensures r.Success? ==> r.value.Keys == dstAdmin.Keys
    ensures r.Success? ==> Sync(TopologyOf(srcAdmin[srcCluster].resources), TopologyOf(r.value[dstCluster].resources), keywords)
    ensures r.Success? ==> r.value[dstCluster].settings == dstAdmin[dstCluster].settings
    ensures r.Success? ==> forall c :: c in dstAdmin && c != dstCluster ==> r.value[c] == dstAdmin[c]
  {
    if srcCluster !in srcAdmin then Failure(ClusterNotFound(srcCluster))
    else if dstCluster !in dstAdmin then Failure(ClusterNotFound(dstCluster))
    else
      var dst := dstAdmin[dstCluster];
      var merged := Reconcile(srcAdmin[srcCluster].resources, dst.resources, cfg.idealState, keywords);
      Success(dstAdmin[dstCluster := dst.(resources := merged)])
  }

  /** `updateResourceIdealState` without dry run: re-applies the ideal-state policy of `cfg`
      to the destination cluster, leaving every partition set as it was. */
  function UpdateResourceIdealState(dstAdmin: Admin, dstCluster: ClusterName, cfg: Config, keywords: seq<string>)
    : (r: Result<Admin, AdminError>)
    ensures r.Failure? <==> dstCluster !in dstAdmin
    ensures r.Success? ==> r.value.Keys == dstAdmin.Keys
    ensures r.Success? ==> TopologyOf(r.value[dstCluster].resources) == TopologyOf(dstAdmin[dstCluster].resources)
    ensures r.Success? ==> forall n :: n in r.value[dstCluster].resources && !Ignored(n, keywords) ==>
              r.value[dstCluster].resources[n].policy == cfg.idealState
    ensures r.Success? ==> forall c :: c in dstAdmin && c != dstCluster ==> r.value[c] == dstAdmin[c]
  {
    if dstCluster !in dstAdmin then Failure(ClusterNotFound(dstCluster))
    else
      var dst := dstAdmin[dstCluster];
      Success(dstAdmin[dstCluster := dst.(resources := Refresh(dst.resources, cfg.idealState, keywords))])
  }

  /** The test's `isSrcDestSync`: walks the source resources, skips ignored ones, and fails
      on the first resource missing from the destination or the first partition the
      destination does not register. */
  method IsSrcDestSync(src: Resources, dst: Resources, keywords: seq<string>) returns (b: bool)
    ensures b <==> Sync(TopologyOf(src), TopologyOf(dst), keywords)
  {
    var pending := src.Keys;
    while pending != {}
      invariant pending <= src.Keys
      invariant forall n :: n in src && n !in pending && !Ignored(n, keywords) ==>
                  n in dst && src[n].PartitionSet() <= dst[n].PartitionSet()
      decreases pending
    {
      var n :| n in pending;
      pending := pending - {n};
      if Ignored(n, keywords) {
        continue;
      }
      if n in dst {
        var srcPartitions := src[n].PartitionSet();
        var dstPartitions := dst[n].PartitionSet();
        var unchecked := srcPartitions;
        while unchecked != {}
          invariant unchecked <= srcPartitions
          invariant srcPartitions - unchecked <= dstPartitions
          decreases unchecked
        {
          var p :| p in unchecked;
          unchecked := unchecked - {p};
          if p !in dstPartitions {
            return false;
          }
        }
      } else {
        return false;
      }
    }
    return true;
  }

  /** Reconciling is a no-op exactly when the clusters are already in sync. */
  lemma ReconcileFixpointIffSync(src: Resources, dst: Resources, cfg: IdealStateConfig, keywords: seq<string>)
    ensures Reconcile(src, dst, cfg, keywords) == dst <==> Sync(TopologyOf(src), TopologyOf(dst), keywords)
  {
    var r := Reconcile(src, dst, cfg, keywords);
    if Sync(TopologyOf(src), TopologyOf(dst), keywords) {
      assert Tracked(src, keywords) <= dst.Keys;
      forall n | n in r
        ensures r[n] == dst[n]
      {
        if n in src && !Ignored(n, keywords) {
          assert TopologyOf(src)[n] <= TopologyOf(dst)[n];
        }
      }
    }
  }

  /** A second reconciliation against an unchanged source changes nothing. */
  lemma ReconcileIdempotent(src: Resources, dst: Resources, cfg: IdealStateConfig, keywords: seq<string>)
    ensures var once := Reconcile(src, dst, cfg, keywords);
            Reconcile(src, once, cfg, keywords) == once
  {
    ReconcileFixpointIffSync(src, Reconcile(src, dst, cfg, keywords), cfg, keywords);
  }

  /** Refreshing the policy never breaks sync, since no partition set changes. */
  lemma RefreshPreservesSync(src: Resources, dst: Resources, cfg: IdealStateConfig, keywords: seq<string>)
    requires Sync(TopologyOf(src), TopologyOf(dst), keywords)
    ensures Sync(TopologyOf(src), TopologyOf(Refresh(dst, cfg, keywords)), keywords)
  {
  }

  /** A source resource whose name matches an ignore keyword has no bearing on sync,
      whatever partitions it has. */
  lemma IgnoredResourceNeverBreaksSync(src: Topology, dst: Topology, keywords: seq<string>, name: ResourceName, partitions: set<PartitionId>)
    requires Ignored(name, keywords)
    ensures Sync(src[name := partitions], dst, keywords) <==> Sync(src - {name}, dst, keywords)
  {
  }

  /** A non-ignored source resource absent from the destination breaks sync. */
  lemma MissingResourceBreaksSync(src: Topology, dst: Topology, keywords: seq<string>, name: ResourceName)
    requires name in src && !Ignored(name, keywords) && name !in dst
    ensures !Sync(src, dst, keywords)
  {
  }

  /** A source partition the destination does not register breaks sync. */
  lemma MissingPartitionBreaksSync(src: Topology, dst: Topology, keywords: seq<string>, name: ResourceName, p: PartitionId)
    requires name in src && !Ignored(name, keywords) && name in dst
    requires p in src[name] && p !in dst[name]
    ensures !Sync(src, dst, keywords)
  {
  }

  /** Sync asks for inclusion, not equality: growing the destination keeps it. */
  lemma SyncAllowsExtraDestination(src: Topology, dst: Topology, bigger: Topology, keywords: seq<string>)
    requires Sync(src, dst, keywords)
    requires forall n :: n in dst ==> n in bigger && dst[n] <= bigger[n]
    ensures Sync(src, bigger, keywords)
  {
  }
}

=== FILE: vcr_populate_test.dfy ===
/** The scenario of the VCR populate tool's integration test: one source resource "1" with
    partitions "0".."99", a first sync, then "1" dropped and recreated with "0".."100" beside a
    new resource "2" with the same partitions, a second sync and finally a policy refresh. */
module VcrPopulateTest {
  import opened Wrappers
  import opened VcrConfig
  import opened IdealStates
  import opened VcrPopulate

  const SrcClusterName := "srcCluster"
  const DestClusterName := "DEST_VCR_CLUSTER1"

  /** Decimal text of a natural number, as `Integer.toString` writes it: digits only, and no
      leading zero except for zero itself. */
  function DecimalString(n: nat): (s: string)
    ensures 0 < |s| && forall k :: 0 <= k < |s| ==> '0' <= s[k] <= '9'
    ensures s[0] == '0' <==> n == 0
    ensures n == 0 ==> s == "0"
    decreases n
  {
    var digit := "0123456789"[n % 10];
    if n < 10 then [digit] else DecimalString(n / 10) + [digit]
  }

  predicate AllDigits(s: string)
  {
    forall k :: 0 <= k < |s| ==> '0' <= s[k] <= '9'
  }

  /** The number a string of decimal digits denotes, most significant digit first. */
  function DigitsValue(s: string): nat
    requires AllDigits(s)
    decreases |s|
  {
    if |s| == 0 then 0 else 10 * DigitsValue(s[..|s| - 1]) + (s[|s| - 1] as int - '0' as int)
  }

  /** The decimal text of `n` denotes `n`. */
  lemma {:induction false} DecimalStringValue(n: nat)
    ensures AllDigits(DecimalString(n)) && DigitsValue(DecimalString(n)) == n
    decreases n
  {
    var s := DecimalString(n);
    if n >= 10 {
      DecimalStringValue(n / 10);
      assert s[..|s| - 1] == DecimalString(n / 10);
    }
  }

  /** Different numbers have different decimal texts, so partition names never collide. */
  lemma DecimalStringInjective(m: nat, n: nat)
    ensures DecimalString(m) == DecimalString(n) <==> m == n
  {
    DecimalStringValue(m);
    DecimalStringValue(n);
  }

  /** The partition names "0", "1", ..., decimal of `count - 1`. */
  function PartitionRange(count: nat): set<PartitionId>
  {
    set i | 0 <= i < count :: DecimalString(i)
  }

  /** `PartitionRange(count)` names exactly `count` partitions: no two numbers share a name. */
  lemma {:induction false} PartitionRangeSize(count: nat)
    ensures |PartitionRange(count)| == count
  {
    if count > 0 {
      var smaller := PartitionRange(count - 1);
      var newest := DecimalString(count - 1);
      PartitionRangeSize(count - 1);
      forall x | x in smaller
        ensures x != newest
      {
        var i :| 0 <= i < count - 1 && DecimalString(i) == x;
        DecimalStringInjective(i, count - 1);
      }
      var all := PartitionRange(count);
      forall x | x in all
        ensures x in smaller + {newest}
      {
        var i :| 0 <= i < count && DecimalString(i) == x;
        if i < count - 1 {
          assert x in smaller;
        }
      }
      assert newest in all;
      assert all == smaller + {newest};
    }
  }

  /** What the test observes: whether `isSrcDestSync` held after each of its three checks,
      and the destination topology at the end. */
  datatype Outcome = Outcome(syncChecks: seq<bool>, finalDest: Topology)

  /** The source admin after the test's setup: an empty source cluster with resource "1". */
  function SetUpSource(cfg: Config): (r: Result<Admin, AdminError>)
    ensures r.Success? && r.value.Keys == {SrcClusterName}
    ensures TopologyOf(r.value[SrcClusterName].resources) == map["1" := PartitionRange(100)]
  {
    var resource := BuildIdealState("1", PartitionRange(100), cfg.idealState);
    AddResource(map[SrcClusterName := Cluster(None, map[])], SrcClusterName, "1", resource)
  }

  function ClusterSync(srcAdmin: Admin, dstAdmin: Admin, keywords: seq<string>): bool
  {
    SrcClusterName in srcAdmin && DestClusterName in dstAdmin &&
    Sync(TopologyOf(srcAdmin[SrcClusterName].resources), TopologyOf(dstAdmin[DestClusterName].resources), keywords)
  }

  /** `testCreateAndUpdateCluster`, step by step; any admin failure ends the test. Whenever
      the admin steps succeed, each of the test's three sync checks holds. */
  function CreateAndUpdateCluster(cfg: Config, keywords: seq<string>): (r: Result<Outcome, AdminError>)
    ensures r.Success? ==> r.value.syncChecks == [true, true, true]
  {
    match SetUpSource(cfg)
    case Failure(e) => Failure(e)
    case Success(src0) =>
      match CreateCluster(map[], DestClusterName, cfg)
      case Failure(e) => Failure(e)
      case Success(dst0) =>
        match UpdateResourceAndPartition(src0, SrcClusterName, dst0, DestClusterName, cfg, keywords)
        case Failure(e) => Failure(e)
        case Success(dst1) =>
          match RecreateSource(src0, cfg)
          case Failure(e) => Failure(e)
          case Success(src3) =>
            match UpdateResourceAndPartition(src3, SrcClusterName, dst1, DestClusterName, cfg, keywords)
            case Failure(e) => Failure(e)
            case Success(dst2) =>
              match UpdateResourceIdealState(dst2, DestClusterName, cfg, keywords)
              case Failure(e) => Failure(e)
              case Success(dst3) =>
                var final := if DestClusterName in dst3 then TopologyOf(dst3[DestClusterName].resources) else map[];
                Success(Outcome(
                  [ClusterSync(src0, dst1, keywords), ClusterSync(src3, dst2, keywords), ClusterSync(src3, dst3, keywords)],
                  final))
  }

  /** The test's source change: drop "1", then add "1" and "2", each over "0".."100". It fails
      when the source cluster is missing or already has a resource "2". */
  function RecreateSource(src: Admin, cfg: Config): (r: Result<Admin, AdminError>)
    ensures r.Success? <==> SrcClusterName in src && "2" !in src[SrcClusterName].resources
    ensures r.Success? ==> r.value.Keys == src.Keys
    ensures r.Success? ==> r.value[SrcClusterName].resources.Keys == src[SrcClusterName].resources.Keys + {"1", "2"}
    ensures r.Success? ==> r.value[SrcClusterName].resources["1"].PartitionSet() == PartitionRange(101)
    ensures r.Success? ==> r.value[SrcClusterName].resources["2"].PartitionSet() == PartitionRange(101)
    ensures r.Success? ==> forall n :: n in src[SrcClusterName].resources && n != "1" && n != "2" ==>
              r.value[SrcClusterName].resources[n] == src[SrcClusterName].resources[n]
  {
    var one := BuildIdealState("1", PartitionRange(101), cfg.idealState);
    var two := BuildIdealState("2", PartitionRange(101), cfg.idealState);
    match DropResource(src, SrcClusterName, "1")
    case Failure(e) => Failure(e)
    case Success(src1) =>
      assert src1[SrcClusterName].resources == src[SrcClusterName].resources - {"1"};
      match AddResource(src1, SrcClusterName, "1", one)
      case Failure(e) => Failure(e)
      case Success(src2) =>
        assert src2[SrcClusterName].resources == src1[SrcClusterName].resources["1" := one];
        var r := AddResource(src2, SrcClusterName, "2", two);
        if r.Success? then
          RecreatedResources(src[SrcClusterName].resources, one, two, r.value[SrcClusterName].resources);
          r
        else r
  }

  /** What dropping "1" and adding "1" and "2" does to one cluster's resources. */
  lemma RecreatedResources(before: Resources, one: IdealState, two: IdealState, after: Resources)
    requires after == (before - {"1"})["1" := one]["2" := two]
    ensures after.Keys == before.Keys + {"1", "2"}
    ensures after["1"] == one && after["2"] == two
    ensures forall n :: n in before && n != "1" && n != "2" ==> after[n] == before[n]
  {
  }

  lemma PartitionRangeGrows(m: nat, n: nat)
    requires m <= n
    ensures PartitionRange(m) <= PartitionRange(n)
  {
  }

  lemma RecreateSourceTopology(src: Admin, cfg: Config)
    requires SrcClusterName in src && src[SrcClusterName].resources.Keys == {"1"}
    ensures RecreateSource(src, cfg).Success?
    ensures SrcClusterName in RecreateSource(src, cfg).value
    ensures TopologyOf(RecreateSource(src, cfg).value[SrcClusterName].resources)
            == map["1" := PartitionRange(101), "2" := PartitionRange(101)]
  {
    var src1 := DropResource(src, SrcClusterName, "1").value;
    var src2 := AddResource(src1, SrcClusterName, "1", BuildIdealState("1", PartitionRange(101), cfg.idealState)).value;
    var src3 := RecreateSource(src, cfg).value;
    assert src3[SrcClusterName].resources.Keys == {"1", "2"};
  }

  /** Reconciling a source topology into a destination whose resources all lie in the source
      and are not ignored yields, per resource, the union of both partition sets. */
  lemma ReconciledTopology(src: Admin, dst: Admin, cfg: Config, keywords: seq<string>)
    requires SrcClusterName in src && DestClusterName in dst
    requires forall n :: n in src[SrcClusterName].resources ==> !Ignored(n, keywords)
    requires dst[DestClusterName].resources.Keys <= src[SrcClusterName].resources.Keys
    ensures UpdateResourceAndPartition(src, SrcClusterName, dst, DestClusterName, cfg, keywords).Success?
    ensures var after := UpdateResourceAndPartition(src, SrcClusterName, dst, DestClusterName, cfg, keywords).value;
            var t := TopologyOf(after[DestClusterName].resources);
            var s := TopologyOf(src[SrcClusterName].resources);
            var d := TopologyOf(dst[DestClusterName].resources);
            && DestClusterName in after
            && t.Keys == s.Keys
            && forall n :: n in t ==> t[n] == s[n] + (if n in d then d[n] else {})
  {
    var srcResources := src[SrcClusterName].resources;
    var dstResources := dst[DestClusterName].resources;
    var merged := Reconcile(srcResources, dstResources, cfg.idealState, keywords);
    assert Tracked(srcResources, keywords) == srcResources.Keys;
  }

  /** Setup, cluster creation and the first sync. */
  lemma FirstPass(cfg: Config, keywords: seq<string>) returns (src0: Admin, dst0: Admin, dst1: Admin)
    requires !Ignored("1", keywords)
    ensures SetUpSource(cfg) == Success(src0)
    ensures CreateCluster(map[], DestClusterName, cfg) == Success(dst0)
    ensures UpdateResourceAndPartition(src0, SrcClusterName, dst0, DestClusterName, cfg, keywords) == Success(dst1)
    ensures SrcClusterName in src0 && src0[SrcClusterName].resources.Keys == {"1"}
    ensures DestClusterName in dst1 && TopologyOf(dst1[DestClusterName].resources) == map["1" := PartitionRange(100)]
    ensures ClusterSync(src0, dst1, keywords)
  {
    src0 := SetUpSource(cfg).value;
    dst0 := CreateCluster(map[], DestClusterName, cfg).value;
    assert TopologyOf(dst0[DestClusterName].resources) == map[];
    ReconciledTopology(src0, dst0, cfg, keywords);
    dst1 := UpdateResourceAndPartition(src0, SrcClusterName, dst0, DestClusterName, cfg, keywords).value;
    FirstTopology(TopologyOf(dst1[DestClusterName].resources), TopologyOf(src0[SrcClusterName].resources),
                  TopologyOf(dst0[DestClusterName].resources));
  }

  /** The first sync into an empty destination copies resource "1" with exactly "0".."99". */
  lemma FirstTopology(t: Topology, s: Topology, d: Topology)
    requires s == map["1" := PartitionRange(100)] && d == map[]
    requires t.Keys == s.Keys
    requires forall n :: n in t ==> t[n] == s[n] + (if n in d then d[n] else {})
    ensures t == map["1" := PartitionRange(100)]
  {
    assert t["1"] == PartitionRange(100);
  }

  /** The source change and the second sync. */
  lemma SecondPass(cfg: Config, keywords: seq<string>, src0: Admin, dst1: Admin) returns (src3: Admin, dst2: Admin)
    requires !Ignored("1", keywords) && !Ignored("2", keywords)
    requires SrcClusterName in src0 && src0[SrcClusterName].resources.Keys == {"1"}
    requires DestClusterName in dst1 && TopologyOf(dst1[DestClusterName].resources) == map["1" := PartitionRange(100)]
    ensures RecreateSource(src0, cfg) == Success(src3)
    ensures UpdateResourceAndPartition(src3, SrcClusterName, dst1, DestClusterName, cfg, keywords) == Success(dst2)
    ensures DestClusterName in dst2
    ensures TopologyOf(dst2[DestClusterName].resources) == map["1" := PartitionRange(101), "2" := PartitionRange(101)]
    ensures ClusterSync(src3, dst2, keywords)
  {
    RecreateSourceTopology(src0, cfg);
    src3 := RecreateSource(src0, cfg).value;
    assert TopologyOf(dst1[DestClusterName].resources).Keys == dst1[DestClusterName].resources.Keys == {"1"};
    assert TopologyOf(src3[SrcClusterName].resources).Keys == src3[SrcClusterName].resources.Keys == {"1", "2"};
    ReconciledTopology(src3, dst1, cfg, keywords);
    dst2 := UpdateResourceAndPartition(src3, SrcClusterName, dst1, DestClusterName, cfg, keywords).value;
    SecondTopology(TopologyOf(dst2[DestClusterName].resources), TopologyOf(src3[SrcClusterName].resources),
                   TopologyOf(dst1[DestClusterName].resources));
  }

  /** The per-resource union after the second sync is "0".."100" for both resources. */
  lemma SecondTopology(t: Topology, s: Topology, d: Topology)
    requires s == map["1" := PartitionRange(101), "2" := PartitionRange(101)]
    requires d == map["1" := PartitionRange(100)]
    requires t.Keys == s.Keys
    requires forall n :: n in t ==> t[n] == s[n] + (if n in d then d[n] else {})
    ensures t == map["1" := PartitionRange(101), "2" := PartitionRange(101)]
  {
    PartitionRangeGrows(100, 101);
    assert t["1"] == PartitionRange(101);
    assert t["2"] == PartitionRange(101);
  }

  /** The test passes for every configuration and every list of ignore keywords: each admin
      step succeeds and all three sync checks hold. */
  lemma CreateAndUpdateClusterSucceeds(cfg: Config, keywords: seq<string>)
    ensures CreateAndUpdateCluster(cfg, keywords).Success?
    ensures CreateAndUpdateCluster(cfg, keywords).value.syncChecks == [true, true, true]
  {
    var src0 := SetUpSource(cfg).value;
    var dst0 := CreateCluster(map[], DestClusterName, cfg).value;
    var dst1 := UpdateResourceAndPartition(src0, SrcClusterName, dst0, DestClusterName, cfg, keywords).value;
    assert RecreateSource(src0, cfg).Success?;
    var src3 := RecreateSource(src0, cfg).value;
    var dst2 := UpdateResourceAndPartition(src3, SrcClusterName, dst1, DestClusterName, cfg, keywords).value;
    assert UpdateResourceIdealState(dst2, DestClusterName, cfg, keywords).Success?;
  }

  /** When the ignore keywords match neither "1" nor "2", both destination resources also end up
      holding exactly partitions "0".."100". */
  lemma CreateAndUpdateClusterPasses(cfg: Config, keywords: seq<string>)
    requires !Ignored("1", keywords) && !Ignored("2", keywords)
    ensures var outcome := CreateAndUpdateCluster(cfg, keywords);
            && outcome.Success?
            && outcome.value.finalDest == map["1" := PartitionRange(101), "2" := PartitionRange(101)]
  {
    var src0, dst0, dst1 := FirstPass(cfg, keywords);
    var src3, dst2 := SecondPass(cfg, keywords, src0, dst1);
    var dst3 := UpdateResourceIdealState(dst2, DestClusterName, cfg, keywords).value;
    assert TopologyOf(dst3[DestClusterName].resources) == TopologyOf(dst2[DestClusterName].resources);
    assert ClusterSync(src3, dst3, keywords);
    assert CreateAndUpdateCluster(cfg, keywords)
           == Success(Outcome([true, true, true], TopologyOf(dst3[DestClusterName].resources)));
  }

  /** The test is parameterised over the two configurations it ships; both pass, whatever the
      ignore keywords. */
  lemma BothTestConfigsPass(keywords: seq<string>)
    ensures CreateAndUpdateCluster(CrushEdRebalancerConfig, keywords).Success?
    ensures CreateAndUpdateCluster(CrushEdRebalancerConfig, keywords).value.syncChecks == [true, true, true]
    ensures CreateAndUpdateCluster(DelayedAutoRebalanceConfig, keywords).Success?
    ensures CreateAndUpdateCluster(DelayedAutoRebalanceConfig, keywords).value.syncChecks == [true, true, true]
  {
    CreateAndUpdateClusterSucceeds(CrushEdRebalancerConfig, keywords);
    CreateAndUpdateClusterSucceeds(DelayedAutoRebalanceConfig, keywords);
  }
}

=== FILE: wrappers.dfy ===
/** Optional values and results shared by the VCR tool and the handler controller. */
module Wrappers {

  datatype Option<+T> = None | Some(value: T)

  /** A value, or the error the Java code would have thrown. */
  datatype Result<+R, +E> = Success(value: R) | Failure(error: E)
}
